=== FILE: README.md ===
# Billed front end: the `localStorage` mock, verified

The Billed front end's tests run in jsdom and replace the browser's
`localStorage` with `localStorageMock`. This is a singleton whose four methods
`getItem`, `setItem`, `clear` and `removeItem` work on one private plain
object `store` (src/__mocks__/localStorage.js). The tests use it to store the
session user under the key `"user"`. The user is `JSON.stringify({ type, email })`
in src/__tests__/NewBill.js, and `JSON.stringify({ type })` with no `email` in
several tests of src/__tests__/Bills.js. The submission test in
src/__tests__/NewBill.js reads it back with
`JSON.parse(localStorage.getItem("user"))`.

This project models that mock in Dafny:

- `wrappers.dfy` (`Wrappers`): the `Option` datatype.
- `local_storage.dfy` (`LocalStorage`): covers the store and its four operations.
  - JavaScript values are a datatype `Val` with an explicit `Undefined` case. This makes the `undefined`-to-`null` collapse of `getItem` visible.
  - The store is a `map<Key, Val>`.
  - Each operation is a pure function.
- `call_history.dfy` (`CallHistory`): covers the singleton across calls.
  - A run is a list of mutating calls.
  - `LatestWrite` is an independent reading of what `getItem` returns, taken from the starting store and the history.
  - `ReadAfterCalls` proves that the store always agrees with that reading.
- `user_json.dfy` (`UserJson`): covers the session user record.
  - `Stringify` models `JSON.stringify` for the flat record `{type, email}` or `{type}`, using the string escapes of section 25.5.2.3 of ECMA-262.
  - `ParseUser` reads either layout back. It decodes the string escapes of section 7 of RFC 8259, except `\u` escapes that name a surrogate code unit.
  - `UserRoundTrip` proves that parsing a stringified record gives the record back, with or without an e-mail address, for any strings of Unicode scalar values.
- `session.dfy` (`Session`): covers storing the user under `"user"` and reading it back, whatever the shared mock held before.

## Model

| member | source | states |
|---|---|---|
| LocalStorage.Empty | src/__mocks__/localStorage.js:2-6 | a fresh store (`let store = {}`) reads `null` under every key |
| LocalStorage.GetItem | src/__mocks__/localStorage.js:4-6 | `getItem` never returns `undefined`; it returns the stored value when that value is not `undefined`, and `null` exactly when the key is absent or holds `undefined` or `null` |
| LocalStorage.SetItem | src/__mocks__/localStorage.js:7-9 | after `setItem(k, v)`, `getItem(k)` is exactly `v` with no coercion, or `null` when `v` is `undefined`; every other key reads as before; the key becomes an own property even when `v` is `undefined` |
| LocalStorage.Clear | src/__mocks__/localStorage.js:10-12 | after `clear()` every key reads `null` and the object has no properties |
| LocalStorage.RemoveItem | src/__mocks__/localStorage.js:13-15 | after `removeItem(k)`, `k` reads `null` and every other key reads as before; removing an absent key leaves the store unchanged |
| LocalStorage.LastWriteWins | src/__mocks__/localStorage.js:7-9 | a second `setItem` on the same key replaces the first entirely |
| LocalStorage.SetItemCommutes | src/__mocks__/localStorage.js:7-9 | `setItem` on two different keys gives the same store in either order |
| LocalStorage.ClearIdempotent | src/__mocks__/localStorage.js:10-12 | `clear()` twice is `clear()` once |
| LocalStorage.RemoveItemIdempotent | src/__mocks__/localStorage.js:13-15 | `removeItem(k)` twice is `removeItem(k)` once |
| LocalStorage.StoreUndefinedReadsLikeRemove | src/__mocks__/localStorage.js:4-15 | `getItem` cannot tell storing `undefined` (or `null`) from removing the key, although storing `undefined` keeps the property |
| LocalStorage.RemoveAfterSet | src/__mocks__/localStorage.js:7-15 | `removeItem(k)` after `setItem(k, v)` gives the store that `removeItem(k)` alone gives |
| CallHistory.ReadAfterCalls | src/__mocks__/localStorage.js:1-17 | after any sequence of calls on the singleton, `getItem(k)` is decided by the latest call that touched `k`: a defined value that was set, otherwise `null`; with no such call it is the starting store's `getItem` reading |
| CallHistory.FreshReadsNullWithoutWrites | src/__mocks__/localStorage.js:2-15 | on a fresh mock, a key that no `setItem` call has written reads `null` after any calls |
| CallHistory.ClearForgetsHistory | src/__mocks__/localStorage.js:10-12 | whatever came before a `clear()`, the store afterwards is the one a fresh mock reaches with the later calls |
| CallHistory.SetThenReadBack | src/__mocks__/localStorage.js:1-17 | whatever the singleton held before, a defined value set under a key reads back unchanged until a later call touches that key or clears the store |
| CallHistory.RunAppend | src/__mocks__/localStorage.js:1-17 | making two runs of calls one after the other on the shared store is making their concatenation |
| UserJson.Stringify | src/__tests__/NewBill.js:39-42 | `JSON.stringify` of the session record `{type, email}` or `{type}` (also stored at Bills.js:25-27, 146 and 165-168) opens with the `type` property. For strings without a quote, backslash or control character, its text is pinned down by `UserJson.StringifyPlain` and `UserJson.StringifyPlainTypeOnly`. `UserJson.UserRoundTrip` proves that `ParseUser` inverts it. Which escape it writes for the other characters is fixed only by the body of `EscapeChar` |
| UserJson.ParseUser | src/__tests__/NewBill.js:110 | `JSON.parse` of the stored record accepts only text that opens with the `type` property; it inverts `Stringify` by `UserJson.UserRoundTrip`, and what it does not accept is listed under the "UserJson.ParseUser:" line of "## Left out" |
| UserJson.Escape | src/__tests__/NewBill.js:39-42 | the body of a string literal written by `JSON.stringify` is at least as long as the string and holds no raw control character |
| UserJson.ParseEscaped | src/__tests__/NewBill.js:110-111 | the escaped body followed by the closing quote reads back as the original string, and the text after the quote is left untouched |
| UserJson.UserRoundTrip | src/__tests__/NewBill.js:110-111 | `JSON.parse(JSON.stringify(user))` is the same record, for `{type, email}` and for `{type}` alone, for all strings of Unicode scalar values |
| UserJson.StringifyPlain | src/__tests__/NewBill.js:39-42 | a `{type, email}` record whose strings have no quote, backslash or control character is written as `{"type":"…","email":"…"}` with the strings copied between the quotes |
| UserJson.StringifyPlainTypeOnly | src/__tests__/Bills.js:23-28 | a `{type}` record with a plain string is written as `{"type":"…"}`, with no `email` property |
| Session.SaveUser | src/__tests__/NewBill.js:39-42 | storing the session user leaves every other key's reading unchanged |
| Session.LoadUser | src/__tests__/NewBill.js:110 | a user is read back only when the `"user"` key holds a string |
| Session.SessionRoundTrip | src/__tests__/NewBill.js:110-111 | whatever the shared mock held, after storing the user, `getItem("user")` is the serialised string unchanged and parsing it gives the same user |
| Session.NoUserAfterClearOrRemove | src/__mocks__/localStorage.js:10-15 | after `clear()` or `removeItem("user")` no session user can be read |

## Left out

- Keys that name members of `Object.prototype` (`toString`, `__proto__`, ...) are excluded by the `Key` subset type. On a plain object, `getItem` of such a key finds the inherited member, and `setItem("__proto__", v)` changes the prototype.
- Key coercion is not modelled. JavaScript turns a non-string key into a string (`setItem(1, v)` is read by `getItem("1")`); the model takes keys as strings.
- Values are not inspected by the mock beyond `!== undefined`. Numbers, objects and functions are therefore the opaque `Opaque(id)` case, compared by identity.
- Real browser `localStorage` behaviour is not modelled: string coercion of values, quotas and storage events. The mock does none of these.
- The tests in src/__tests__/Bills.js and src/__tests__/NewBill.js are not modelled. They cover DOM rendering, routing, modals, jest spies and the bill containers, store and formatting helpers, and that code is not part of this model.
- UserJson.ParseUser: reads only the compact text that `JSON.stringify` writes for the record, with `type` first, then `email` if present, and no whitespace. Full `JSON.parse` also accepts other layouts and `\u` escapes of surrogates, including valid surrogate pairs; ParseUser refuses all of these.
- UserJson.Stringify: no contract states which escape it writes for a quote, backslash or control character. `ParseUser` accepts several escapes for one character (`\"` and `\u0022`, upper- and lower-case hex), so the round trip cannot fix the choice. The choice follows QuoteJSONString and is fixed only by the body of `EscapeChar`.
- UserJson.Escape: strings are sequences of Unicode scalar values, so JavaScript strings holding lone UTF-16 surrogates are out of the model. `JSON.stringify` writes such a surrogate as `\udXXX`, and `JSON.parse` reads it back.
- Session.LoadUser: gives `None` in three cases.
  - `"user"` reads `null` or a boolean: `JSON.parse` returns `null`, `true` or `false`, none of which is a user record.
  - `JSON.parse` would throw a SyntaxError: the stored string is not JSON (such as `"x"`), or the stored value's string form is not JSON (an object becomes `"[object Object]"`, `NaN` becomes `"NaN"`). The exception is not modelled.
  - Any other non-string value. `JSON.parse` returns a number for a finite number. For a `String` wrapper object holding `{"type":"Employee"}` it returns a user, which the model misses.

=== FILE: call_history.dfy ===
/**
 The mock is a singleton: the object returned by the immediately invoked
 function keeps one `store` for the whole test run, and every call changes
 it in turn. This module describes a run as the list of mutating calls made
 on the singleton and gives an independent, history-based account of what
 `getItem` returns after them.
 */
module CallHistory {
  import opened LocalStorage

  /** A mutating call on the mock, with its arguments. */
  datatype Call =
    | SetCall(key: Key, value: Val)
    | RemoveCall(key: Key)
    | ClearCall

  /** The effect of one call on the store. */
  function Apply(s: Store, c: Call): Store {
    match c
    case SetCall(k, v) => SetItem(s, k, v)
    case RemoveCall(k) => RemoveItem(s, k)
    case ClearCall => Clear(s)
  }

  /** The store after making `calls`, first to last, starting from `s`. */
  function Run(s: Store, calls: seq<Call>): Store
    decreases |calls|
  {
    if |calls| == 0 then s else Run(Apply(s, calls[0]), calls[1..])
  }

  /** What `getItem(key)` should return after `calls`, read off the starting
      store and the history: the latest call that touched `key` decides. A
      `setItem` of a defined value is seen as that value; a `setItem` of
      `undefined`, a `removeItem` of the key or a `clear()` is seen as `null`;
      with no such call the read is the starting store's `getItem` reading. */
  function LatestWrite(s: Store, calls: seq<Call>, key: Key): Val
    decreases |calls|
  {
    if |calls| == 0 then GetItem(s, key)
    else
      var last := calls[|calls| - 1];
      var earlier := calls[..|calls| - 1];
      match last
      case SetCall(k, v) =>
        if k != key then LatestWrite(s, earlier, key)
        else if Missing(v) then Null
        else v
      case RemoveCall(k) =>
        if k != key then LatestWrite(s, earlier, key) else Null
      case ClearCall => Null
  }

  /** Running a history that ends in one more call is running the prefix and
      then that call. */
  lemma {:induction false} RunSnoc(s: Store, calls: seq<Call>, c: Call)
    ensures Run(s, calls + [c]) == Apply(Run(s, calls), c)
    decreases |calls|
  {
    if |calls| == 0 {
      assert calls + [c] == [c];
      assert [c][1..] == [];
    } else {
      assert (calls + [c])[0] == calls[0];
      assert (calls + [c])[1..] == calls[1..] + [c];
      RunSnoc(Apply(s, calls[0]), calls[1..], c);
    }
  }

  /** Running two histories one after the other is running their concatenation. */
  lemma {:induction false} RunAppend(s: Store, first: seq<Call>, second: seq<Call>)
    ensures Run(s, first + second) == Run(Run(s, first), second)
    decreases |first|
  {
    if |first| == 0 {
      assert first + second == second;
    } else {
      assert (first + second)[0] == first[0];
      assert (first + second)[1..] == first[1..] + second;
      RunAppend(Apply(s, first[0]), first[1..], second);
    }
  }

  /** The store the mock keeps agrees with the history: after any sequence of
      calls, `getItem(key)` returns the value of the latest call that touched
      `key`, as `LatestWrite` reads it off the history. */
  lemma {:induction false} ReadAfterCalls(s: Store, calls: seq<Call>, key: Key)
    ensures GetItem(Run(s, calls), key) == LatestWrite(s, calls, key)
    decreases |calls|
  {
    if |calls| > 0 {
      var earlier := calls[..|calls| - 1];
      var last := calls[|calls| - 1];
      assert calls == earlier + [last];
      RunSnoc(s, earlier, last);
      ReadAfterCalls(s, earlier, key);
    }
  }

  /** No call in `calls` is a `setItem` of `key`. */
  predicate NeverSet(calls: seq<Call>, key: Key) {
    forall i :: 0 <= i < |calls| ==> !calls[i].SetCall? || calls[i].key != key
  }

  /** A fresh mock reads `null` under every key that no `setItem` call has
      written to. */
  lemma FreshReadsNullWithoutWrites(calls: seq<Call>, key: Key)
    requires NeverSet(calls, key)
    ensures GetItem(Run(Empty(), calls), key) == Null
  {
    ReadAfterCalls(Empty(), calls, key);
    LatestWriteWithoutWrites(calls, key);
  }

  /** The history reading of a key that was never set is `null` in a fresh store. */
  lemma {:induction false} LatestWriteWithoutWrites(calls: seq<Call>, key: Key)
    requires NeverSet(calls, key)
    ensures LatestWrite(Empty(), calls, key) == Null
    decreases |calls|
  {
    if |calls| > 0 {
      var earlier := calls[..|calls| - 1];
      assert forall i :: 0 <= i < |earlier| ==> earlier[i] == calls[i];
      assert NeverSet(earlier, key);
      LatestWriteWithoutWrites(earlier, key);
    }
  }

  /** `clear()` forgets the whole history: whatever happened before it, the
      store afterwards is the one a fresh mock reaches with the later calls. */
  lemma ClearForgetsHistory(s: Store, before: seq<Call>, after: seq<Call>)
    ensures Run(s, before + [ClearCall] + after) == Run(Empty(), after)
  {
    RunAppend(s, before + [ClearCall], after);
    RunSnoc(s, before, ClearCall);
  }

  /** Whatever the singleton holds from earlier tests, a `setItem(key, v)`
      with a defined `v` is read back as `v` until a later call touches `key`. */
  lemma SetThenReadBack(s: Store, key: Key, v: Val, later: seq<Call>)
    requires !Missing(v)
    requires forall i :: 0 <= i < |later| ==> later[i] != ClearCall && later[i].key != key
    ensures GetItem(Run(s, [SetCall(key, v)] + later), key) == v
  {
    ReadAfterCalls(s, [SetCall(key, v)] + later, key);
    LatestWriteUntouched(s, [SetCall(key, v)], later, key);
    assert [SetCall(key, v)][..0] == [];
  }

  /** Calls that do not touch `key` do not change its history reading. */
  lemma {:induction false} LatestWriteUntouched(s: Store, calls: seq<Call>, later: seq<Call>, key: Key)
    requires forall i :: 0 <= i < |later| ==> later[i] != ClearCall && later[i].key != key
    ensures LatestWrite(s, calls + later, key) == LatestWrite(s, calls, key)
    decreases |later|
  {
    if |later| > 0 {
      var shorter := later[..|later| - 1];
      assert (calls + later)[..|calls + later| - 1] == calls + shorter;
      assert (calls + later)[|calls + later| - 1] == later[|later| - 1];
      assert forall i :: 0 <= i < |shorter| ==> shorter[i] == later[i];
      LatestWriteUntouched(s, calls, shorter, key);
    } else {
      assert calls + later == calls;
    }
  }
}

=== FILE: local_storage.dfy ===
/**
 A model of `localStorageMock`, the in-memory stand-in for the browser's
 `localStorage` that the Billed front end uses in its tests
 (src/__mocks__/localStorage.js).

 The mock closes over one plain object `store`. Each of its four methods is
 modelled here as a pure function: it takes the current object and returns
 either the value read or the object after the update.
 */
module LocalStorage {

  /** A JavaScript value as far as the mock can tell values apart. The mock
      only asks one question of a value, `!== undefined`, and otherwise
      stores and returns it untouched. So numbers, objects and functions are
      represented opaquely by an identity. */
  datatype Val =
    | Undefined
    | Null
    | Bool(b: bool)
    | Str(s: string)
    | Opaque(id: nat)

  /** The own and inherited members of `Object.prototype`. Looking one of these
      names up in a plain object finds the inherited member even when the store
      has no own property of that name, and assigning `__proto__` changes the
      prototype instead of adding a property. */
  const ObjectPrototypeMembers: set<string> := {
    "constructor", "hasOwnProperty", "isPrototypeOf", "propertyIsEnumerable",
    "toLocaleString", "toString", "valueOf", "__proto__",
    "__defineGetter__", "__defineSetter__", "__lookupGetter__", "__lookupSetter__"
  }

  /** A key that behaves as an ordinary own property of the store object. */
  type Key = k: string | k !in ObjectPrototypeMembers witness "user"

  /** The closure-held `store` object: its own properties and their values.
      A property whose value is `Undefined` is still present, as after
      `store[key] = undefined` in JavaScript. */
  type Store = map<Key, Val>

  /** True when `getItem` would report `v` as missing. */
  predicate Missing(v: Val) {
    v == Undefined
  }

  /** The object the closure starts with, `let store = {}`; a fresh store
      reads `null` under every key. */
  function Empty(): (s: Store)
    ensures forall k: Key :: GetItem(s, k) == Null
    ensures |s| == 0
  {
    map[]
  }

  /** `getItem(key)`: the stored value, or `null` when the lookup gives
      `undefined`, that is when the key is absent or holds `undefined`. */
  function GetItem(s: Store, key: Key): (r: Val)
    ensures !Missing(r)
    ensures key in s && !Missing(s[key]) ==> r == s[key]
    ensures r == Null <==> key !in s || Missing(s[key]) || s[key] == Null
  {
    if key in s && !Missing(s[key]) then s[key] else Null
  }

  /** `setItem(key, value)`: overwrite the property `key`, with no coercion of
      the value. Reading the key back yields exactly `value`, except that
      `undefined` reads back as `null`; every other key reads as before. */
  function SetItem(s: Store, key: Key, value: Val): (s': Store)
    ensures GetItem(s', key) == (if Missing(value) then Null else value)
    ensures forall j: Key :: j != key ==> GetItem(s', j) == GetItem(s, j)
    ensures s'.Keys == s.Keys + {key}
  {
    s[key := value]
  }

  /** `clear()`: replace the object by a new empty one; afterwards every key
      reads `null`. */
  function Clear(s: Store): (s': Store)
    ensures forall k: Key :: GetItem(s', k) == Null
    ensures s'.Keys == {}
  {
    Empty()
  }

  /** `removeItem(key)`: delete the own property `key`. The key then reads
      `null`, every other key reads as before, and deleting an absent key
      leaves the object as it was. */
  function RemoveItem(s: Store, key: Key): (s': Store)
    ensures GetItem(s', key) == Null
    ensures forall j: Key :: j != key ==> GetItem(s', j) == GetItem(s, j)
    ensures s'.Keys == s.Keys - {key}
    ensures key !in s ==> s' == s
  {
    s - {key}
  }

  /** Two stores that no sequence of `getItem` calls can tell apart. */
  ghost predicate SameReads(s: Store, t: Store) {
    forall k: Key :: GetItem(s, k) == GetItem(t, k)
  }

  /** Last write wins: a second `setItem` on the same key discards the first. */
  lemma LastWriteWins(s: Store, key: Key, v1: Val, v2: Val)
    ensures SetItem(SetItem(s, key, v1), key, v2) == SetItem(s, key, v2)
  {
  }

  /** `setItem` on two different keys commutes. */
  lemma SetItemCommutes(s: Store, k1: Key, v1: Val, k2: Key, v2: Val)
    requires k1 != k2
    ensures SetItem(SetItem(s, k1, v1), k2, v2) == SetItem(SetItem(s, k2, v2), k1, v1)
  {
  }

  /** `clear()` is idempotent. */
  lemma ClearIdempotent(s: Store)
    ensures Clear(Clear(s)) == Clear(s)
  {
  }

  /** Removing a key twice is the same as removing it once. */
  lemma RemoveItemIdempotent(s: Store, key: Key)
    ensures RemoveItem(RemoveItem(s, key), key) == RemoveItem(s, key)
  {
  }

  /** Storing `undefined` (or `null`) cannot be told apart from removing the
      key through `getItem`, although the property itself stays on the object. */
  lemma StoreUndefinedReadsLikeRemove(s: Store, key: Key)
    ensures SameReads(SetItem(s, key, Undefined), RemoveItem(s, key))
    ensures SameReads(SetItem(s, key, Null), RemoveItem(s, key))
    ensures key in SetItem(s, key, Undefined)
  {
  }

  /** A `removeItem` after a `setItem` of the same key undoes it: the object is
      as if the key had simply been removed. */
  lemma RemoveAfterSet(s: Store, key: Key, v: Val)
    ensures RemoveItem(SetItem(s, key, v), key) == RemoveItem(s, key)
  {
  }
}

=== FILE: session.dfy ===
/**
 The tests' use of the mock as a channel for the session user: several tests
 store `JSON.stringify(user)` under "user", where the user is
 `{ type, email }` or `{ type }` alone, and the submission test reads it back
 with `JSON.parse(localStorage.getItem("user"))`.
 */
module Session {
  import opened Wrappers
  import opened LocalStorage
  import opened UserJson

  /** The key the session record lives under. */
  const UserKey: Key := "user"

  /** `localStorage.setItem("user", JSON.stringify(u))`. */
  function SaveUser(s: Store, u: User): (s': Store)
    ensures forall k: Key :: k != UserKey ==> GetItem(s', k) == GetItem(s, k)
  {
    SetItem(s, UserKey, Str(Stringify(u)))
  }

  /** `JSON.parse(localStorage.getItem("user"))` when the stored value is a
      string; `None` when the key reads `null` or holds anything else. */
  function LoadUser(s: Store): (r: Option<User>)
    ensures r.Some? ==> GetItem(s, UserKey).Str?
  {
    match GetItem(s, UserKey)
    case Str(j) => ParseUser(j)
    case _ => None
  }

  /** Whatever the shared mock held before, storing a user under "user" and
      reading it back yields the same string, unchanged, and parsing that
      string gives the same user. */
  lemma SessionRoundTrip(s: Store, u: User)
    ensures GetItem(SaveUser(s, u), UserKey) == Str(Stringify(u))
    ensures LoadUser(SaveUser(s, u)) == Some(u)
  {
    UserRoundTrip(u);
  }

  /** After `clear()` or `removeItem("user")` there is no session user. */
  lemma NoUserAfterClearOrRemove(s: Store)
    ensures LoadUser(Clear(s)) == None
    ensures LoadUser(RemoveItem(s, UserKey)) == None
  {
  }
}

=== FILE: user_json.dfy ===
/**
 The session user record that the tests keep under the key "user": the
 object `{ type, email }`, or `{ type }` alone, written with `JSON.stringify`
 and read back with `JSON.parse`.

 `Stringify` follows `JSON.stringify` for this flat record of strings
 (section 25.5.2.3 of ECMA-262, QuoteJSONString, for the string escapes).
 `ParseUser` reads the compact text that `Stringify` produces. It decodes the
 string escapes of section 7 of RFC 8259 except a `\u` escape naming a
 surrogate code unit, which a Dafny `char` (a Unicode scalar value) cannot hold.
 */
module UserJson {
  import opened Wrappers

  /** The session user: its account type ("Employee") and, when the record
      has one, its e-mail address. */
  datatype User = User(userType: string, email: Option<string>)

  /** The lower-case hexadecimal digit for `n`, as `JSON.stringify` writes it. */
  function HexDigit(n: nat): (c: char)
    requires n < 16
    ensures '0' <= c <= '9' || 'a' <= c <= 'f'
  {
    if n < 10 then ('0' as int + n) as char else ('a' as int + n - 10) as char
  }

  predicate IsHexDigit(c: char) {
    '0' <= c <= '9' || 'a' <= c <= 'f' || 'A' <= c <= 'F'
  }

  /** The value of a hexadecimal digit of either case. */
  function HexValue(c: char): (n: nat)
    requires IsHexDigit(c)
    ensures n < 16
  {
    if '0' <= c <= '9' then c as int - '0' as int
    else if 'a' <= c <= 'f' then c as int - 'a' as int + 10
    else c as int - 'A' as int + 10
  }

  /** How `JSON.stringify` writes one character inside a string literal: a
      two-character escape for the quote, the backslash, backspace, tab, line
      feed, form feed and carriage return; `\u00XX` for the other control
      characters; the character itself otherwise. */
  function EscapeChar(c: char): (r: string)
    ensures |r| >= 1
    ensures forall i :: 0 <= i < |r| ==> ' ' <= r[i]
    ensures r[0] != '"'
  {
    if c == '"' then "\\\""
    else if c == '\\' then "\\\\"
    else if c == '\U{8}' then "\\b"
    else if c == '\t' then "\\t"
    else if c == '\n' then "\\n"
    else if c == '\U{C}' then "\\f"
    else if c == '\r' then "\\r"
    else if c < ' ' then "\\u00" + [HexDigit(c as int / 16), HexDigit(c as int % 16)]
    else [c]
  }

  /** The body of the string literal `JSON.stringify` writes for `s`. It never
      holds a raw control character, which JSON forbids inside strings. */
  function Escape(s: string): (r: string)
    ensures |r| >= |s|
    ensures forall i :: 0 <= i < |r| ==> ' ' <= r[i]
  {
    if |s| == 0 then "" else EscapeChar(s[0]) + Escape(s[1..])
  }

  /** A string literal as `JSON.stringify` writes it. */
  function Quote(s: string): string {
    "\"" + Escape(s) + "\""
  }

  /** The `email` property as `JSON.stringify` writes it after `type`: absent
      when the record has no e-mail address. */
  function EmailMember(email: Option<string>): string {
    match email
    case None => ""
    case Some(e) => ",\"email\":" + Quote(e)
  }

  /** `JSON.stringify({ type: u.userType, email: e })`, or
      `JSON.stringify({ type: u.userType })` when there is no address:
      compact, with the properties in the order they were written. */
  function Stringify(u: User): (j: string)
    ensures "{\"type\":\"" <= j
  {
    "{\"type\":" + Quote(u.userType) + EmailMember(u.email) + "}"
  }

  /** Decodes the escape sequence that follows a backslash, returning the
      character and the text after the sequence. A `\u` escape naming a
      surrogate code unit is refused. */
  function Unescape(t: string): (r: Option<(char, string)>)
    ensures r.Some? ==> |r.value.1| < |t|
  {
    if |t| == 0 then None
    else if t[0] == '"' || t[0] == '\\' || t[0] == '/' then Some((t[0], t[1..]))
    else if t[0] == 'b' then Some(('\U{8}', t[1..]))
    else if t[0] == 't' then Some(('\t', t[1..]))
    else if t[0] == 'n' then Some(('\n', t[1..]))
    else if t[0] == 'f' then Some(('\U{C}', t[1..]))
    else if t[0] == 'r' then Some(('\r', t[1..]))
    else if t[0] == 'u' && |t| >= 5
            && IsHexDigit(t[1]) && IsHexDigit(t[2]) && IsHexDigit(t[3]) && IsHexDigit(t[4]) then
      var code := 4096 * HexValue(t[1]) + 256 * HexValue(t[2]) + 16 * HexValue(t[3]) + HexValue(t[4]);
      if 0xD800 <= code < 0xE000 then None else Some((code as char, t[5..]))
    else None
  }

  /** Puts `c` in front of a decoded string body. */
  function Prepend(c: char, r: Option<(string, string)>): Option<(string, string)> {
    match r
    case None => None
    case Some((body, after)) => Some(([c] + body, after))
  }

  /** Reads the body of a string literal up to its closing quote, returning the
      decoded string and the text after the quote. A raw control character,
      a bad escape or a missing closing quote makes it fail. */
  function ParseChars(t: string): Option<(string, string)>
    decreases |t|
  {
    if |t| == 0 then None
    else if t[0] == '"' then Some(("", t[1..]))
    else if t[0] < ' ' then None
    else if t[0] == '\\' then
      match Unescape(t[1..])
      case None => None
      case Some((c, rest)) => Prepend(c, ParseChars(rest))
    else Prepend(t[0], ParseChars(t[1..]))
  }

  /** Consumes the literal text `p` at the front of `t`. */
  function Expect(p: string, t: string): (r: Option<string>)
    ensures r.Some? <==> p <= t
    ensures r.Some? ==> t == p + r.value
  {
    if p <= t then Some(t[|p|..]) else None
  }

  /** Reads a whole string literal, quotes included. */
  function ParseString(t: string): Option<(string, string)> {
    match Expect("\"", t)
    case None => None
    case Some(body) => ParseChars(body)
  }

  /** `JSON.parse` of the session record, for the compact text `Stringify`
      writes: `None` when the text is not such a record. Only text that opens
      with the `type` property is accepted. */
  function ParseUser(j: string): (r: Option<User>)
    ensures r.Some? ==> "{\"type\":\"" <= j
  {
    match Expect("{\"type\":", j)
    case None => None
    case Some(t0) =>
      match ParseString(t0)
      case None => None
      case Some((userType, t1)) => ParseRest(userType, t1)
  }

  /** Reads what follows the `type` property: either the closing brace, or
      the `email` property and then the closing brace. */
  function ParseRest(userType: string, t: string): Option<User> {
    if t == "}" then Some(User(userType, None))
    else
      match Expect(",\"email\":", t)
      case None => None
      case Some(t2) =>
        match ParseString(t2)
        case None => None
        case Some((email, t3)) =>
          if t3 == "}" then Some(User(userType, Some(email))) else None
  }

  /** Reading back one escaped character gives the character. */
  lemma ParseEscapedChar(c: char, t: string)
    ensures ParseChars(EscapeChar(c) + t) == Prepend(c, ParseChars(t))
  {
    var e := EscapeChar(c);
    var u := e + t;
    if c < ' ' && c !in {'\U{8}', '\t', '\n', '\U{C}', '\r'} {
      var hi, lo := c as int / 16, c as int % 16;
      assert e == "\\u00" + [HexDigit(hi), HexDigit(lo)];
      assert u[1..] == "u00" + [HexDigit(hi), HexDigit(lo)] + t;
      assert u[1..][5..] == t;
      assert (16 * hi + lo) as char == c;
    } else if |e| == 2 {
      assert u[0] == '\\';
      assert u[1..] == [e[1]] + t;
      assert u[1..][1..] == t;
    } else {
      assert e == [c];
      assert u[1..] == t;
    }
  }

  /** The body `Escape` writes, followed by the closing quote, reads back as
      the original string and leaves the text after the quote untouched. */
  lemma {:induction false} ParseEscaped(s: string, rest: string)
    ensures ParseChars(Escape(s) + "\"" + rest) == Some((s, rest))
    decreases |s|
  {
    if |s| == 0 {
      assert Escape(s) + "\"" + rest == "\"" + rest;
    } else {
      var tail := Escape(s[1..]) + "\"" + rest;
      assert Escape(s) + "\"" + rest == EscapeChar(s[0]) + tail;
      ParseEscapedChar(s[0], tail);
      ParseEscaped(s[1..], rest);
      assert [s[0]] + s[1..] == s;
    }
  }

  /** A quoted string followed by more text reads back as the string. */
  lemma ParseQuoted(s: string, rest: string)
    ensures ParseString(Quote(s) + rest) == Some((s, rest))
  {
    assert Quote(s) + rest == "\"" + (Escape(s) + "\"" + rest);
    ParseEscaped(s, rest);
  }

  /** `JSON.parse(JSON.stringify(u))` gives back `u`, for every record with
      or without an e-mail address, whatever Unicode scalar values its
      strings hold. */
  lemma UserRoundTrip(u: User)
    ensures ParseUser(Stringify(u)) == Some(u)
  {
    var tail := EmailMember(u.email) + "}";
    assert Stringify(u) == "{\"type\":" + (Quote(u.userType) + tail);
    ExpectPrefix("{\"type\":", Quote(u.userType) + tail);
    ParseQuoted(u.userType, tail);
    ParseRestRoundTrip(u.userType, u.email);
  }

  /** The text `Stringify` writes after the `type` property reads back as
      the e-mail address, or as its absence. */
  lemma ParseRestRoundTrip(userType: string, email: Option<string>)
    ensures ParseRest(userType, EmailMember(email) + "}") == Some(User(userType, email))
  {
    match email
    case None =>
      assert EmailMember(email) + "}" == "}";
    case Some(e) =>
      var tail := EmailMember(email) + "}";
      assert tail == ",\"email\":" + (Quote(e) + "}");
      assert tail != "}";
      ExpectPrefix(",\"email\":", Quote(e) + "}");
      ParseQuoted(e, "}");
  }

  /** Consuming a literal prefix leaves the text after it. */
  lemma ExpectPrefix(p: string, t: string)
    ensures Expect(p, p + t) == Some(t)
  {
    assert (p + t)[|p|..] == t;
  }

  /** A character `JSON.stringify` copies as it is. */
  predicate IsPlain(c: char) {
    ' ' <= c && c != '"' && c != '\\'
  }

  predicate IsPlainString(s: string) {
    forall i :: 0 <= i < |s| ==> IsPlain(s[i])
  }

  /** A string of plain characters is written without any escape. */
  lemma {:induction false} EscapePlain(s: string)
    requires IsPlainString(s)
    ensures Escape(s) == s
    decreases |s|
  {
    if |s| > 0 {
      EscapePlain(s[1..]);
      assert [s[0]] + s[1..] == s;
    }
  }

  /** A plain string is quoted without any escape. */
  lemma QuotePlain(s: string)
    requires IsPlainString(s)
    ensures Quote(s) == "\"" + s + "\""
  {
    EscapePlain(s);
  }

  /** A record whose strings need no escape is written with the strings
      copied between the quotes; with the tests' strings this is
      `{"type":"Employee","email":"test@test.com"}`. */
  lemma StringifyPlain(kind: string, email: string)
    requires IsPlainString(kind) && IsPlainString(email)
    ensures Stringify(User(kind, Some(email)))
         == "{\"type\":\"" + kind + "\",\"email\":\"" + email + "\"}"
  {
    QuotePlain(kind);
    QuotePlain(email);
  }

  /** The same for a record without an e-mail address, which is written with
      the `type` property alone, as `{"type":"Employee"}`. */
  lemma StringifyPlainTypeOnly(kind: string)
    requires IsPlainString(kind)
    ensures Stringify(User(kind, None)) == "{\"type\":\"" + kind + "\"}"
  {
    QuotePlain(kind);
  }
}

=== FILE: wrappers.dfy ===
/** The optional-value datatype shared by the other modules. */
module Wrappers {

  /** `Some(v)` carries a value; `None` stands for a failed parse or an absent record. */
  datatype Option<+T> = None | Some(value: T)
}
